=== FILE: README.md ===
# Fault-tolerant command executor: a Dafny model of its core

The system has two processes. The **coordinator** keeps a `commands` table.
Clients submit DELAY and HTTP_GET_JSON commands to it. Agents poll it for
the oldest PENDING command and report outcomes back. The **worker** hosts a
small pool of agents. Each agent polls, executes the command it receives,
writes an execution log entry, and then reports. After a restart, the
coordinator reconciles every RUNNING command in three steps:

1. A log entry means the command finished, so its logged outcome is copied.
2. Otherwise, an agent still running means the command is left alone.
3. Otherwise, an idempotent command is requeued, and any other is failed
   with "Agent crashed during execution".

The `next` endpoint has its own on-demand path. It fails whatever RUNNING
command the polling agent still holds, and only then hands it new work.

The model is functional:

- The `commands` table is a creation-ordered `seq<Command>`.
- Every coordinator operation is a pure transition of that sequence.
- The worker's agent table is a `seq<Agent>`.
- The worker's log table is a `seq<LogEntry>`.
- Everything that crosses a process boundary becomes an input datatype:
  - the coordinator's answer to a poll;
  - the network answer of an HTTP_GET_JSON fetch;
  - the log and status answers that recovery receives;
  - whether a log write or a report succeeds.

Files:

| file | module | what it holds |
|---|---|---|
| wrappers.dfy | `Wrappers` | `Option`, `Result` |
| search.dfy | `Search` | earliest-match search, the model of `find` / `findByPk` / ordered `findOne` |
| command_model.dfy | `CommandModel` | the `Command` record, the store invariant `Valid` |
| command_service.dfy | `CommandService` | create, get, find-running, mark-failed, assign, report |
| command_controller.dfy | `CommandController` | the decision logic of `create`, `get`, `next` |
| execution_log.dfy | `ExecutionLog` | the worker's log table |
| recovery.dfy | `Recovery` | the per-command reconciler and the startup sweep |
| agent_registry.dfy | `AgentRegistry` | the worker's agent table |
| command_executor.dfy | `CommandExecutor` | dispatch and outcome normalisation |
| polling.dfy | `Polling` | one poll of one agent, start/stop of the loops |
| lifecycle.dfy | `Lifecycle` | any sequence of coordinator entry points |
| scenarios.dfy | `Scenarios` | end-to-end crash and lost-acknowledgement runs |

The store invariant `CommandModel.Valid` has four parts:

- command ids are unique (the primary key);
- every RUNNING row names an owner;
- attempt counts are non-negative;
- no agent owns two RUNNING rows.

Every coordinator entry point keeps this invariant, and so does every run
of them. No entry point lowers an attempt count or changes a command's
id, type, payload or idempotency flag.

### Where the model follows the code rather than the design notes

- A report (`updateCommandResult`) does not clear `agentId`. A finished
  command still names the agent that ran it, so "agentId is set exactly
  while RUNNING" does not hold. A requeued idempotent command keeps its
  former owner too. `Scenarios.ReportKeepsOwner` and
  `Scenarios.CrashBeforeLog` show both cases.
- The on-demand path in `next` consults neither logs, nor liveness, nor
  the idempotency flag. Take a command whose result was logged but whose
  acknowledgement was lost. If its agent simply polls again, the command
  is marked FAILED, whereas the restart sweep would have copied the logged
  COMPLETED outcome (`Scenarios.AckLostThenPollAgain` against
  `Scenarios.AckLostThenRestart`).
- Liveness is asked per agent, not per command. A stale RUNNING command
  is kept whenever its former owner is busy with any other command
  (`Scenarios.BusyOwnerKeepsStaleCommands`).
- `createCommand` is never passed the idempotency flag by the controller.
  Every command created over HTTP is therefore non-idempotent. A crash
  before its log entry is written fails it on the restart sweep, unless
  its agent still reports running. A logged outcome is still copied
  (`Scenarios.AckLostThenRestart`).
- A JSON null payload is rejected by the non-null `payload` column, so
  the coordinator never stores or hands out one
  (`CommandService.CreateCommand`). The executor still handles a null
  payload the way the source does (the handler throws), but in the
  modelled flow that branch is never reached.
- `initializeAgents` throws once the clamped count exceeds the pool. It
  has activated the whole pool by then. `AgentRegistry.InitializeAgents`
  returns `ok == false` in that case.

## Model

| member | source | states |
|---|---|---|
| Search.FirstIndex | src/services/command.service.ts:48-65 | the index found is the earliest element satisfying the selector, and none is found exactly when no element satisfies it (the ordered `findOne` used for the oldest PENDING command) |
| CommandModel.IndexOfUnique | src/models/command.model.ts:24-27 | under the primary key, the row a lookup by id finds is the only row with that id |
| CommandService.CreateCommand | src/services/command.service.ts:5-20 | a fresh id with a non-null payload appends exactly one PENDING row with attempt 0, the given type, payload and flag, and every nullable column null; a clashing id or a JSON null payload (a non-null column) makes the insert fail and leaves the store unchanged |
| CommandService.GetCommand | src/services/command.service.ts:22-25 | a row is returned exactly when the id is present, and it is a row of the store with that id |
| CommandService.FindRunningCommandForAgent | src/services/command.service.ts:27-35 | it returns a RUNNING row owned by the agent, and nothing exactly when the agent owns no RUNNING row |
| CommandService.MarkCommandAsFailed | src/services/command.service.ts:37-46 | the row with that id becomes FAILED with the error and a completion time, whatever its prior status; every other field and every other row is unchanged; an unknown id changes nothing |
| CommandService.GetNextPendingCommand | src/services/command.service.ts:48-65 | nothing is returned exactly when no row is PENDING; otherwise the earliest PENDING row becomes RUNNING for the agent with one more attempt and a start time, and nothing else changes |
| CommandService.UpdateCommandResult | src/services/command.service.ts:67-99 | a report lands exactly when a RUNNING row with that id is owned by the reporter; that row takes the status and completion time, the result only if one is given, the error only if it is truthy, and keeps its owner; otherwise the store is unchanged |
| CommandService.CreateThenGet | src/services/command.service.ts:5-25 | for a fresh id, get finds afterwards exactly what create returned: the new row, or nothing when the insert failed |
| CommandService.AssignThenReport | src/services/command.service.ts:48-99 | after an assignment, the assignee's report completes the command with the reported status, and the same report from any other agent is ignored |
| CommandController.Create | src/controllers/command.controller.ts:6-15 | 201 with the new id exactly when type and payload are present, the payload is not JSON null, and the id is fresh; the new row carries the submitted type and payload, is PENDING with attempt 0, is never idempotent, and has no owner, result, error or timestamps; otherwise 500 and no change |
| CommandController.Get | src/controllers/command.controller.ts:17-33 | 404 exactly for an unknown id; otherwise the row's status, result and owner |
| CommandController.Next | src/controllers/command.controller.ts:35-74 | 400 and no change exactly when the agent id is missing or empty; 204 when nothing is PENDING; any command handed out was PENDING and is now RUNNING for that agent with one more attempt |
| CommandController.FailStaleExact | src/controllers/command.controller.ts:43-56 | on a valid store, exactly the polling agent's RUNNING row becomes FAILED with the crash error, whatever its idempotency flag, and no other row changes |
| CommandController.NextAssignsOldestPending | src/controllers/command.controller.ts:58-69 | with an agent id, the answer is 204 exactly when nothing is PENDING; otherwise it is the earliest PENDING command, now RUNNING for the agent with one more attempt |
| CommandController.NextExact | src/controllers/command.controller.ts:43-69 | on a valid store with an agent id, `next` fails the agent's RUNNING command with the crash error and a completion time, makes the oldest PENDING command RUNNING for the agent with one more attempt and a start time, and keeps every other row and every other field |
| CommandController.FailStaleKeepsOldestPending | src/controllers/command.controller.ts:43-59 | on a valid store, failing the polling agent's stale command leaves the oldest PENDING command unchanged, so `next` hands out the command that was oldest before |
| CommandController.FailStaleValid | src/controllers/command.controller.ts:43-56 | failing the stale command keeps the store invariant and every attempt count, leaves the agent no RUNNING row, and changes no row's PENDING-ness |
| CommandController.AssignValid | src/services/command.service.ts:48-65 | assigning to an agent with no RUNNING row keeps the store invariant and lowers no attempt count |
| CommandController.NextPreservesValid | src/controllers/command.controller.ts:35-74 | `next` keeps the store invariant, so after it the agent owns at most one RUNNING command, and it lowers no attempt count |
| ExecutionLog.GetLogByCommandId | agent/src/services/log.service.ts:39-46 | an entry is returned exactly when one exists for the command, and it is an entry of the table for that command |
| ExecutionLog.SaveThenGet | agent/src/services/log.service.ts:9-46 | after the first entry for a command is saved, a lookup finds it, and lookups for other commands are unchanged |
| Recovery.FetchCommandLogs | src/services/recovery.service.ts:104-119 | a body is an entry, a 404 and only a 404 is "no entry", and every other failure is an error |
| Recovery.AgentLiveness | src/services/recovery.service.ts:124-135 | the agent counts as running exactly when the answer is a body saying so, and as not running exactly when the body says not |
| Recovery.UpdateCommandFromLogs | src/services/recovery.service.ts:140-153 | the logged status, result and error are copied and a completion time is set; nothing else changes |
| Recovery.HandleCrashedAgent | src/services/recovery.service.ts:158-176 | an idempotent command only becomes PENDING; any other becomes FAILED with the crash error and a completion time, and nothing else changes |
| Recovery.RecoverCommand | src/services/recovery.service.ts:71-98 | a log entry decides the outcome whatever the liveness; with no entry, a running agent keeps the command; otherwise the idempotency policy applies; a failed log query changes nothing; owner, attempt and identity are never changed, and a result still RUNNING is the command unchanged |
| Recovery.RunStartupRecovery | src/services/recovery.service.ts:21-45 | every RUNNING row is replaced by its recovery with the answers for its id and its owner; every other row is unchanged; the result equals the reference sweep |
| Recovery.UnreachableIsNotRunning | src/services/recovery.service.ts:124-135 | an unreachable agent leads to the same recovery as an agent that says it is not running |
| Recovery.LogOutranksLiveness | src/services/recovery.service.ts:73-80 | when a log entry exists, the liveness answer does not affect the recovery |
| Recovery.SweepStepStable | src/services/recovery.service.ts:71-98 | recovering a row a second time with the same answers changes nothing |
| Recovery.SweepIdempotent | src/services/recovery.service.ts:21-45 | a second sweep with the same answers makes no further change, whatever the clock |
| Recovery.SweepWithoutRunning | src/services/recovery.service.ts:32-35 | with no RUNNING row the sweep changes nothing |
| Recovery.SweepPreservesValid | src/services/recovery.service.ts:21-45 | the sweep keeps the store invariant and every attempt count, and leaves no row RUNNING that was not RUNNING before |
| AgentRegistry.Clamp | agent/src/services/agent.service.ts:24-29 | the count used is at most both the request and the maximum, and is one of them |
| AgentRegistry.InitializeAgents | agent/src/services/agent.service.ts:23-36 | the first clamped-count agents become ACTIVE with nothing else changed and the rest are untouched; it reports failure exactly when the clamped count exceeds the table |
| AgentRegistry.GetAgent | agent/src/services/agent.service.ts:48-50 | an agent is returned exactly when one has that id, and it is the first agent of the table with that id |
| AgentRegistry.GetActiveAgents | agent/src/services/agent.service.ts:55-57 | the result holds exactly the ACTIVE agents, in table order, each as many times as it occurs in the table |
| AgentRegistry.MarkAsRunning | agent/src/services/agent.service.ts:62-69 | the agent with that id becomes RUNNING on the command, keeping its id and name; other agents are unchanged; an unknown id changes nothing |
| AgentRegistry.MarkAsActive | agent/src/services/agent.service.ts:74-81 | the agent with that id becomes ACTIVE with no current command; other agents are unchanged; an unknown id changes nothing |
| AgentRegistry.IsAgentRunning | agent/src/services/agent.service.ts:86-89 | true exactly when the first agent with that id is RUNNING |
| AgentRegistry.IsAgentRunningExact | agent/src/services/agent.service.ts:86-89 | with unique ids, true exactly when the agent with that id is RUNNING |
| AgentRegistry.PoolWellFormed | agent/src/services/agent.service.ts:11-17 | the initial pool has five INACTIVE agents with distinct ids and no current command |
| AgentRegistry.RunThenActiveRestores | agent/src/services/agent.service.ts:62-81 | on a well-formed table, marking an ACTIVE agent RUNNING keeps the table well formed, and marking it ACTIVE again restores the table exactly |
| AgentRegistry.RunThenActiveFrame | agent/src/services/agent.service.ts:62-81 | marking a known agent RUNNING and then ACTIVE changes no id and no other agent's entry, either while it runs or afterwards, and the lookup by its id finds its own entry each time |
| AgentRegistry.SameIdsSameIndex | agent/src/services/agent.service.ts:48-50 | a lookup by id depends only on the ids, not on states or current commands |
| CommandExecutor.ExecuteDelay | agent/src/services/command-executor.service.ts:67-80 | a null payload throws on reading `ms`; otherwise the outcome is COMPLETED with the delay (0 when absent) and no error |
| CommandExecutor.ExecuteHttpGet | agent/src/services/command-executor.service.ts:85-162 | a null payload throws; a missing url is FAILED; a response is COMPLETED with its status, body and size, flagged truncated exactly at 10 MiB or more; an error response is COMPLETED with its status and message; no response is FAILED with the message |
| CommandExecutor.Execute | agent/src/services/command-executor.service.ts:23-62 | every outcome is FAILED exactly when it carries an error; an unknown type becomes FAILED with its message; a null payload makes the handler throw, which becomes FAILED with no result and the thrown message; a DELAY with a payload completes with its delay; an HTTP_GET_JSON with a url has exactly the fetch handler's outcome |
| CommandExecutor.DelayIgnoresNetwork | agent/src/services/command-executor.service.ts:40-42 | a DELAY's outcome does not depend on the network, and it completes on any non-null payload |
| CommandExecutor.HttpFailsOnlyWithoutResponse | agent/src/services/command-executor.service.ts:127-161 | an HTTP_GET_JSON with a url is FAILED exactly when no response came back |
| Polling.StartPolling | agent/src/services/polling.service.ts:29-52 | afterwards, an agent has a loop exactly when it had one before or was ACTIVE at the call |
| Polling.StopPolling | agent/src/services/polling.service.ts:57-63 | no loop remains |
| Polling.PollForWork | agent/src/services/polling.service.ts:68-185 | an unknown or non-ACTIVE agent, or an answer without a command, changes nothing; otherwise the agent is RUNNING on the command while it executes and ACTIVE with no command afterwards; every other agent's entry is unchanged during and after the poll; the log entry is the executor's outcome and is appended before a report is sent; a failed log write sends no report |
| Polling.ReportFailureSwallowed | agent/src/services/polling.service.ts:162-185 | a report that fails leaves the agent table and the log exactly as a delivered one does |
| Polling.PollRestoresRegistry | agent/src/services/polling.service.ts:103-157 | on a well-formed table, a poll leaves the table exactly as it found it, whatever happened, and the table is well formed while the command runs |
| Lifecycle.CompletePreservesValid | src/services/command.service.ts:67-99 | a report keeps the store invariant and every attempt count |
| Lifecycle.SubmitPreservesValid | src/controllers/command.controller.ts:6-15 | a submission keeps the store invariant and appends at most one row, leaving the old rows in place |
| Lifecycle.ApplyPreservesValid | src/services/command.service.ts:5-99 | each entry point (submit, poll, report, restart sweep) keeps the store invariant and the identity of every row and lowers no attempt count; only a poll changes one |
| Lifecycle.RunPreservesValid | src/services/command.service.ts:5-99 | over any sequence of entry points from a valid store, the store stays valid, and no attempt count goes down |
| Scenarios.TakenIsRunning | src/services/command.service.ts:48-65 | a submitted DELAY handed to agent-1 is RUNNING for it on attempt 1, with its flag kept |
| Scenarios.CrashBeforeLog | src/services/recovery.service.ts:71-98 | a worker that crashed before logging leaves, after the sweep, an idempotent command PENDING (still naming agent-1) and any other FAILED with the crash error, both at attempt 1 |
| Scenarios.WorkedLogsCompletion | agent/src/services/polling.service.ts:103-144 | agent-1 running a 10 ms DELAY logs and reports COMPLETED with that delay |
| Scenarios.AckLostThenRestart | src/services/recovery.service.ts:71-80 | with the report lost, the sweep takes the logged COMPLETED outcome and does not retry |
| Scenarios.AckLostThenPollAgain | src/controllers/command.controller.ts:43-62 | with the report lost, the agent's next poll marks the command FAILED with the crash error although its log says COMPLETED |
| Scenarios.ReportKeepsOwner | src/services/command.service.ts:86-97 | after the report the command is COMPLETED with its result and still names the agent that ran it |
| Scenarios.BusyOwnerKeepsStaleCommands | src/services/recovery.service.ts:82-91 | while agent-1 runs another command, the sweep keeps every one of its RUNNING commands that has no log, whichever command it is |
| Scenarios.SingleAssignment | src/controllers/command.controller.ts:58-69 | with exactly one PENDING command, the first of two polling agents receives it and the second gets 204 |

## Left out

- Transport. HTTP routing, status codes beyond the decision they encode,
  JSON encoding and axios are not modelled. Each request is its decision
  function, and each answer is an input datatype.
- Transport mismatches between the two processes, none of which the model
  repairs:
  - the poller sends its id in an `X-Agent-Id` header, while `next` reads
    `req.body.agentId`;
  - the coordinator's PATCH route names a controller method that does not
    exist;
  - the worker's status route calls an undefined `isAgentRunningCommand`
    when a command id is given;
  - axios resolves a 204, so the poller's catch branch for 204 is dead.

  The model takes each endpoint's intended input.
- `waitForAgentService`: an unbounded retry loop over the network.
  `Recovery.RunStartupRecovery` starts at the point where the health check
  has answered.
- Random failure injection and `process.exit`: a crash is modelled by its
  effect, namely a log write or report that never happens, or a fresh
  agent table.
- Timers and signals: `setInterval` polling, the sleep of a DELAY, the
  kill timer and shutdown handlers. Time is an abstract `Tick`, and a
  DELAY's wait is not modelled.
- Concurrency. Each coordinator call is one atomic transition. The race
  between a find and the following save, and overlapping polls of one
  agent, are outside the model.
- Database failures in the controllers (the 500 branches of `get` and
  `next`) are not modelled: each controller call is one all-or-nothing
  step. In the source, `next` is not atomic. If `getNextPendingCommand`
  throws after `markCommandAsFailed` has saved, the stale command stays
  FAILED and the answer is 500, a state `CommandController.Next` does not
  produce.
- A database write that throws inside `recoverCommand` is not modelled
  (the save is assumed to succeed). A log query that throws leaves the
  command as it was, as in the source.
- Ties in `createdAt` ordering: the store's sequence order stands for
  creation order.
- Body sizes: `Buffer.byteLength` of the serialised body is an input
  (`bytesReturned`), not computed from a string.
- Payload shapes other than null or an object with optional `ms` and
  `url`. A DELAY's `ms` is an integer; non-numeric values and `NaN` are
  not modelled.
- `MAX_AGENT_COUNT` parsing: the maximum is an integer, and an
  unparseable value (`NaN`) is not modelled.
- `Polling.StartPolling`: calling it twice replaces an agent's interval
  handle and leaks the old timer. The model keeps a set of looping agent
  ids, so the leaked timer does not appear.
- The log service's ORM details (generated ids, timestamps) and the
  logger. The log table is a sequence of entries.
- Process bootstrap, command-line parsing, environment configuration and
  the database connection setup.

=== FILE: agent_registry.dfy ===
/** The worker process's in-memory agent table (`AgentService`): a fixed
    pool of five agents, activated up to a maximum, moving between ACTIVE
    and RUNNING as they take and release commands. */
module AgentRegistry {
  import opened Wrappers
  import opened Search

  datatype AgentState = Inactive | Active | Running

  datatype Agent = Agent(id: string, name: string, state: AgentState, currentCommandId: Option<string>)

  /** The table, in pool order. */
  type Registry = seq<Agent>

  /** The pool every worker process starts from. */
  const Pool: Registry := [
    Agent("agent-1", "Agent 1", Inactive, None),
    Agent("agent-2", "Agent 2", Inactive, None),
    Agent("agent-3", "Agent 3", Inactive, None),
    Agent("agent-4", "Agent 4", Inactive, None),
    Agent("agent-5", "Agent 5", Inactive, None)
  ]

  function AgentIdIs(id: string): Agent -> bool {
    (a: Agent) => a.id == id
  }

  function AgentIndex(agents: Registry, id: string): Option<nat> {
    FirstIndex(agents, AgentIdIs(id))
  }

  ghost predicate UniqueAgentIds(agents: Registry) {
    forall i, j :: 0 <= i < |agents| && 0 <= j < |agents| && agents[i].id == agents[j].id ==> i == j
  }

  /** An agent names a current command exactly while it is RUNNING. */
  ghost predicate WellFormed(agents: Registry) {
    && UniqueAgentIds(agents)
    && forall i :: 0 <= i < |agents| ==> (agents[i].currentCommandId.Some? <==> agents[i].state == Running)
  }

  /** The requested count after clamping to the maximum. */
  function Clamp(count: int, maxCount: int): (n: int)
    ensures n <= count && n <= maxCount
    ensures n == count || n == maxCount
  {
    if count > maxCount then maxCount else count
  }

  /** `initializeAgents`: mark the first `count` agents ACTIVE, with
      `count` clamped to `maxCount`. When the clamped count exceeds the
      table, indexing past its end throws after the whole table has been
      activated; `ok` is false then. */
  method InitializeAgents(agents: Registry, count: int, maxCount: int) returns (r: Registry, ok: bool)
    ensures |r| == |agents|
    ensures ok <==> Clamp(count, maxCount) <= |agents|
    ensures forall k :: 0 <= k < |agents| && k < Clamp(count, maxCount) ==> r[k] == agents[k].(state := Active)
    ensures forall k :: 0 <= k < |agents| && Clamp(count, maxCount) <= k ==> r[k] == agents[k]
  {
    var n := count;
    if n > maxCount {
      n := maxCount;
    }
    r := agents;
    var i := 0;
    while i < n
      invariant 0 <= i <= |agents|
      invariant i <= n || i == 0
      invariant n == Clamp(count, maxCount)
      invariant |r| == |agents|
      invariant forall j :: 0 <= j < i ==> r[j] == agents[j].(state := Active)
      invariant forall j :: i <= j < |agents| ==> r[j] == agents[j]
    {
      if i >= |r| {
        ok := false;
        return;
      }
      r := r[i := r[i].(state := Active)];
      i := i + 1;
    }
    ok := true;
  }

  /** `getAgent`: the first agent with that id, if any. */
  function GetAgent(agents: Registry, id: string): (r: Option<Agent>)
    ensures r.Some? ==> r.value in agents && r.value.id == id
    ensures r.Some? ==> exists i :: 0 <= i < |agents| && agents[i] == r.value && forall j :: 0 <= j < i ==> agents[j].id != id
    ensures r.None? <==> forall i :: 0 <= i < |agents| ==> agents[i].id != id
  {
    First(agents, AgentIdIs(id))
  }

  /** `getActiveAgents`: the ACTIVE agents, in pool order, each as often
      as it occurs in the table. */
  function GetActiveAgents(agents: Registry): (r: Registry)
    ensures forall a :: a in r <==> a in agents && a.state == Active
    ensures forall a :: multiset(r)[a] == if a.state == Active then multiset(agents)[a] else 0
    ensures |r| <= |agents|
    ensures IsSubsequence(r, agents)
  {
    if |agents| == 0 then []
    else
      assert agents == [agents[0]] + agents[1..];
      if agents[0].state == Active then [agents[0]] + GetActiveAgents(agents[1..])
      else GetActiveAgents(agents[1..])
  }

  /** `markAsRunning`: that agent becomes RUNNING on `commandId`; an
      unknown id changes nothing. */
  function MarkAsRunning(agents: Registry, agentId: string, commandId: string): (r: Registry)
    ensures |r| == |agents|
    ensures AgentIndex(agents, agentId).None? ==> r == agents
    ensures AgentIndex(agents, agentId).Some? ==>
      var i := AgentIndex(agents, agentId).value;
      && r[i].state == Running && r[i].currentCommandId == Some(commandId)
      && r[i].id == agents[i].id && r[i].name == agents[i].name
      && forall j :: 0 <= j < |agents| && j != i ==> r[j] == agents[j]
  {
    match AgentIndex(agents, agentId)
    case None => agents
    case Some(i) => agents[i := agents[i].(state := Running, currentCommandId := Some(commandId))]
  }

  /** `markAsActive`: that agent becomes ACTIVE with no current command;
      an unknown id changes nothing. */
  function MarkAsActive(agents: Registry, agentId: string): (r: Registry)
    ensures |r| == |agents|
    ensures AgentIndex(agents, agentId).None? ==> r == agents
    ensures AgentIndex(agents, agentId).Some? ==>
      var i := AgentIndex(agents, agentId).value;
      && r[i].state == Active && r[i].currentCommandId.None?
      && r[i].id == agents[i].id && r[i].name == agents[i].name
      && forall j :: 0 <= j < |agents| && j != i ==> r[j] == agents[j]
  {
    match AgentIndex(agents, agentId)
    case None => agents
    case Some(i) => agents[i := agents[i].(state := Active, currentCommandId := None)]
  }

  /** `isAgentRunning`: the first agent with that id exists and is RUNNING. */
  function IsAgentRunning(agents: Registry, agentId: string): (r: bool)
    ensures r <==> exists i :: 0 <= i < |agents| && agents[i].id == agentId && agents[i].state == Running
                              && forall j :: 0 <= j < i ==> agents[j].id != agentId
  {
    match GetAgent(agents, agentId)
    case Some(a) => a.state == Running
    case None => false
  }

  /** With unique ids, `isAgentRunning` is exactly "some agent with that id is RUNNING". */
  lemma {:induction false} IsAgentRunningExact(agents: Registry, agentId: string)
    requires UniqueAgentIds(agents)
    ensures IsAgentRunning(agents, agentId) <==>
      exists i :: 0 <= i < |agents| && agents[i].id == agentId && agents[i].state == Running
  {
    if exists i :: 0 <= i < |agents| && agents[i].id == agentId && agents[i].state == Running {
      var i :| 0 <= i < |agents| && agents[i].id == agentId && agents[i].state == Running;
      var k := AgentIndex(agents, agentId).value;
      assert agents[k].id == agentId;
      assert k == i;
    }
  }

  /** The pool is well formed, all INACTIVE, five agents with distinct ids. */
  lemma PoolWellFormed()
    ensures |Pool| == 5 && WellFormed(Pool)
    ensures forall i :: 0 <= i < |Pool| ==> Pool[i].state == Inactive
  {
  }

  /** Taking a command and releasing it returns a well-formed table to
      where it was, whatever the command; both steps keep it well formed. */
  lemma {:induction false} RunThenActiveRestores(agents: Registry, agentId: string, commandId: string)
    requires WellFormed(agents)
    requires GetAgent(agents, agentId).Some? && GetAgent(agents, agentId).value.state == Active
    ensures WellFormed(MarkAsRunning(agents, agentId, commandId))
    ensures MarkAsActive(MarkAsRunning(agents, agentId, commandId), agentId) == agents
  {
    var i := AgentIndex(agents, agentId).value;
    var busy := MarkAsRunning(agents, agentId, commandId);
    assert AgentIndex(busy, agentId) == Some(i) by {
      assert AgentIdIs(agentId)(busy[i]);
    }
    var back := MarkAsActive(busy, agentId);
    assert back[i] == agents[i];
  }

  /** Taking a command and releasing it touch only the entry of the agent
      that does so, during and after, and never an id. */
  lemma {:induction false} RunThenActiveFrame(agents: Registry, agentId: string, commandId: string)
    requires AgentIndex(agents, agentId).Some?
    ensures
      var busy := MarkAsRunning(agents, agentId, commandId);
      var after := MarkAsActive(busy, agentId);
      && |busy| == |agents| && |after| == |agents|
      && (forall i :: 0 <= i < |agents| ==> busy[i].id == agents[i].id && after[i].id == agents[i].id)
      && (forall i :: 0 <= i < |agents| && AgentIndex(agents, agentId) != Some(i) ==>
            busy[i] == agents[i] && after[i] == agents[i])
      && GetAgent(busy, agentId) == Some(busy[AgentIndex(agents, agentId).value])
      && GetAgent(after, agentId) == Some(after[AgentIndex(agents, agentId).value])
  {
    var k := AgentIndex(agents, agentId).value;
    var busy := MarkAsRunning(agents, agentId, commandId);
    var after := MarkAsActive(busy, agentId);
    SameIdsSameIndex(agents, busy, agentId);
    SameIdsSameIndex(busy, after, agentId);
  }

  /** Rewriting states and current commands leaves every lookup by id where it was. */
  lemma {:induction false} SameIdsSameIndex(a: Registry, b: Registry, id: string)
    requires |a| == |b|
    requires forall i :: 0 <= i < |a| ==> a[i].id == b[i].id
    ensures AgentIndex(a, id) == AgentIndex(b, id)
  {
    forall i | 0 <= i < |a|
      ensures AgentIdIs(id)(a[i]) == AgentIdIs(id)(b[i])
    {
    }
    FirstIndexAgrees(a, b, AgentIdIs(id));
  }
}

=== FILE: command_controller.dfy ===
/** The decision logic of the coordinator's HTTP handlers
    (`CommandController`), with each response reduced to a result code
    and its body. */
module CommandController {
  import opened Wrappers
  import opened Search
  import opened CommandModel
  import opened CommandService

  /** 201 with the new id, or 500. */
  datatype CreateResponse = Created(commandId: string) | CreateFailed

  /** 404, or 200 with the visible fields. */
  datatype GetResponse = CommandNotFound | CommandView(status: Status, result: Option<ResultValue>, agentId: Option<string>)

  /** 400, 204, or 200 with the assigned command. */
  datatype NextResponse = AgentIdRequired | NoWork | Work(commandId: string, kind: string, payload: Payload)

  /** The store after a request, with the response sent. */
  datatype Answer<R> = Answer(store: Store, response: R)

  /** `create`: the body's `type` and `payload` become a command; the
      idempotency flag is never forwarded, so it takes its default, false.
      A missing type or payload, a JSON null payload (both are non-null
      columns) or a clashing id makes the insert fail. */
  function Create(s: Store, id: string, kind: Option<string>, payload: Option<Payload>): (r: Answer<CreateResponse>)
    ensures r.response.Created? <==> kind.Some? && payload.Some? && payload != Some(NullPayload) && !HasId(s, id)
    ensures r.response.CreateFailed? ==> r.store == s
    ensures r.response.Created? ==>
      && r.response.commandId == id
      && |r.store| == |s| + 1 && r.store[..|s|] == s
      && r.store[|s|].id == id && r.store[|s|].status == Pending && r.store[|s|].attempt == 0
      && !r.store[|s|].isIdempotent
      && r.store[|s|].kind == kind.value && r.store[|s|].payload == payload.value
      && r.store[|s|].agentId.None? && r.store[|s|].result.None? && r.store[|s|].error.None?
      && r.store[|s|].startedAt.None? && r.store[|s|].completedAt.None?
  {
    if kind.None? || payload.None? then Answer(s, CreateFailed)
    else
      var c := CreateCommand(s, id, kind.value, payload.value, false);
      match c.command
      case None => Answer(s, CreateFailed)
      case Some(cmd) => Answer(c.store, Created(cmd.id))
  }

  /** `get`: 404 for an unknown id, otherwise status, result and owner. */
  function Get(s: Store, id: string): (r: GetResponse)
    ensures r.CommandNotFound? <==> !HasId(s, id)
    ensures r.CommandView? ==>
      exists i :: 0 <= i < |s| && s[i].id == id
        && r == CommandView(s[i].status, s[i].result, s[i].agentId)
  {
    match GetCommand(s, id)
    case None => CommandNotFound
    case Some(c) => CommandView(c.status, c.result, c.agentId)
  }

  /** The first half of `next`: fail whatever RUNNING command the polling
      agent still holds. Neither logs, liveness nor idempotency are consulted. */
  function FailStale(s: Store, agentId: string, now: Tick): Store {
    match FindRunningCommandForAgent(s, agentId)
    case Some(c) => MarkCommandAsFailed(s, c.id, CrashError, now).store
    case None => s
  }

  /** `next`: reject a missing agent id; otherwise fail the agent's stale
      RUNNING command, then assign it the oldest PENDING one. */
  function Next(s: Store, agentId: Option<string>, now: Tick): (r: Answer<NextResponse>)
    ensures !Truthy(agentId) <==> r.response.AgentIdRequired?
    ensures !Truthy(agentId) ==> r.store == s
    ensures Truthy(agentId) && NoPending(s) ==> r.response.NoWork?
    ensures |r.store| == |s|
    ensures r.response.Work? ==>
      exists i :: 0 <= i < |s| && s[i].status == Pending
        && r.store[i].id == r.response.commandId && r.store[i].kind == r.response.kind
        && r.store[i].payload == r.response.payload
        && r.store[i].status == Running && r.store[i].agentId == agentId
        && r.store[i].attempt == s[i].attempt + 1
  {
    if !Truthy(agentId) then Answer(s, AgentIdRequired)
    else
      var s1 := FailStale(s, agentId.value, now);
      var r := GetNextPendingCommand(s1, agentId.value, now);
      match r.command
      case None => Answer(r.store, NoWork)
      case Some(c) => Answer(r.store, Work(c.id, c.kind, c.payload))
  }

  /** On a valid store, failing the stale command touches exactly the
      agent's RUNNING row, whatever its idempotency flag, and no other. */
  lemma {:induction false} FailStaleExact(s: Store, agentId: string, now: Tick)
    requires Valid(s)
    ensures |FailStale(s, agentId, now)| == |s|
    ensures forall i :: 0 <= i < |s| ==>
      var t := FailStale(s, agentId, now)[i];
      if s[i].status == Running && s[i].agentId == Some(agentId) then
        t.status == Failed && t.error == Some(CrashError) && t.completedAt == Some(now)
        && t.(status := s[i].status, error := s[i].error, completedAt := s[i].completedAt) == s[i]
      else t == s[i]
  {
    match FindRunningCommandForAgent(s, agentId)
    case None =>
    case Some(c) =>
      var k :| 0 <= k < |s| && s[k] == c;
      IndexOfUnique(s, c.id, k);
  }

  /** On a valid store with an agent id, `next` answers "no work" exactly
      when nothing is PENDING; otherwise it hands out the oldest PENDING
      command, now RUNNING for that agent with one more attempt. */
  lemma {:induction false} NextAssignsOldestPending(s: Store, agentId: string, now: Tick)
    requires Valid(s) && agentId != ""
    ensures Next(s, Some(agentId), now).response.NoWork? <==> NoPending(s)
    ensures !NoPending(s) ==>
      var i := OldestPending(s).value;
      var r := Next(s, Some(agentId), now);
      && r.response == Work(s[i].id, s[i].kind, s[i].payload)
      && r.store[i].status == Running && r.store[i].agentId == Some(agentId)
      && r.store[i].attempt == s[i].attempt + 1
  {
    var s1 := FailStale(s, agentId, now);
    FailStaleExact(s, agentId, now);
    FailStaleKeepsOldestPending(s, agentId, now);
    forall i | 0 <= i < |s| && IsPending(s[i])
      ensures s1[i] == s[i]
    {
    }
  }

  /** On a valid store with an agent id, `next` fails the agent's stale
      RUNNING command, assigns the oldest PENDING command to it, and keeps
      every other row. */
  lemma {:induction false} NextExact(s: Store, agentId: string, now: Tick)
    requires Valid(s) && agentId != ""
    ensures |Next(s, Some(agentId), now).store| == |s|
    ensures forall i :: 0 <= i < |s| ==>
      var t := Next(s, Some(agentId), now).store[i];
      if RunningFor(agentId)(s[i]) then
        && t.status == Failed && t.error == Some(CrashError) && t.completedAt == Some(now)
        && t.(status := s[i].status, error := s[i].error, completedAt := s[i].completedAt) == s[i]
      else if OldestPending(s) == Some(i) then
        && t.status == Running && t.agentId == Some(agentId)
        && t.attempt == s[i].attempt + 1 && t.startedAt == Some(now)
        && t.(status := s[i].status, agentId := s[i].agentId, attempt := s[i].attempt,
              startedAt := s[i].startedAt) == s[i]
      else t == s[i]
  {
    var s1 := FailStale(s, agentId, now);
    FailStaleExact(s, agentId, now);
    FailStaleKeepsOldestPending(s, agentId, now);
    var r := GetNextPendingCommand(s1, agentId, now);
    assert Next(s, Some(agentId), now).store == r.store;
    forall i | 0 <= i < |s|
      ensures OldestPending(s) == Some(i) ==> s1[i] == s[i] && !RunningFor(agentId)(s[i])
    {
    }
  }

  /** Failing the stale command leaves every PENDING row where it was, so
      the command `next` hands out is the one that was oldest before. */
  lemma {:induction false} FailStaleKeepsOldestPending(s: Store, agentId: string, now: Tick)
    requires Valid(s)
    ensures OldestPending(FailStale(s, agentId, now)) == OldestPending(s)
  {
    var s1 := FailStale(s, agentId, now);
    FailStaleExact(s, agentId, now);
    forall i | 0 <= i < |s|
      ensures IsPending(s[i]) == IsPending(s1[i])
    {
    }
    FirstIndexAgrees(s, s1, IsPending);
  }

  /** Failing the stale command keeps the store invariant and leaves the
      agent with no RUNNING command. */
  lemma {:induction false} FailStaleValid(s: Store, agentId: string, now: Tick)
    requires Valid(s)
    ensures Valid(FailStale(s, agentId, now))
    ensures KeepsAttempts(s, FailStale(s, agentId, now))
    ensures forall i :: 0 <= i < |s| ==> !RunningFor(agentId)(FailStale(s, agentId, now)[i])
    ensures forall i :: 0 <= i < |s| ==> IsPending(s[i]) == IsPending(FailStale(s, agentId, now)[i])
  {
    FailStaleExact(s, agentId, now);
    var s1 := FailStale(s, agentId, now);
    forall i | 0 <= i < |s|
      ensures SameIdentity(s[i], s1[i]) && s1[i].attempt == s[i].attempt && s1[i].agentId == s[i].agentId
      ensures s1[i].status == Running ==> s[i].status == Running
    {
    }
  }

  /** Assigning to an agent that holds no RUNNING command keeps the store
      invariant and lowers no attempt count. */
  lemma {:induction false} AssignValid(s: Store, agentId: string, now: Tick)
    requires Valid(s)
    requires forall i :: 0 <= i < |s| ==> !RunningFor(agentId)(s[i])
    ensures Valid(GetNextPendingCommand(s, agentId, now).store)
    ensures Evolves(s, GetNextPendingCommand(s, agentId, now).store)
  {
    var r := GetNextPendingCommand(s, agentId, now).store;
    match OldestPending(s)
    case None =>
    case Some(k) =>
      forall i, j | 0 <= i < |r| && 0 <= j < |r| && r[i].status == Running && r[j].status == Running
                    && r[i].agentId == r[j].agentId
        ensures i == j
      {
      }
      assert UniqueIds(r);
  }

  /** `next` keeps the store invariant; in particular the polling agent
      holds at most one RUNNING command afterwards. It lowers no attempt
      count and touches no identity field. */
  lemma {:induction false} NextPreservesValid(s: Store, agentId: Option<string>, now: Tick)
    requires Valid(s)
    ensures Valid(Next(s, agentId, now).store)
    ensures Evolves(s, Next(s, agentId, now).store)
  {
    if Truthy(agentId) {
      var a := agentId.value;
      var s1 := FailStale(s, a, now);
      FailStaleValid(s, a, now);
      AssignValid(s1, a, now);
    }
  }
}

=== FILE: command_executor.dfy ===
/** The worker's dispatcher (`CommandExecutorService`): a command type
    selects a handler, and every way a handler can end is normalised to
    a `{status, result, error}` outcome. The network answer of an
    HTTP_GET_JSON fetch is an input. */
module CommandExecutor {
  import opened Wrappers
  import opened CommandModel

  /** Response bodies of this size or more are flagged as truncated (10 MiB). */
  const MaxBytes: nat := 10 * 1024 * 1024

  /** What the outbound GET yields: a 2xx response, an error response
      (4xx/5xx) with its message, or no response (network error,
      timeout, size limit exceeded) with its message. `bytesReturned` is
      the UTF-8 length of the body as the source measures it. */
  datatype HttpOutcome =
    | HttpResponse(status: int, body: string, bytesReturned: nat)
    | HttpErrorResponse(status: int, body: string, bytesReturned: nat, message: string)
    | HttpNoResponse(message: string)

  /** The normalised outcome of one execution. */
  datatype ExecResult = ExecResult(status: Outcome, result: Option<ResultValue>, error: Option<string>)

  /** Message of the TypeError thrown when a handler reads `field` of a null payload. */
  function NullFieldError(field: string): string {
    "Cannot read properties of null (reading '" + field + "')"
  }

  const UrlRequiredError: string := "URL is required for HTTP_GET_JSON command"

  function UnknownTypeError(kind: string): string {
    "Unknown command type: " + kind
  }

  /** `executeDelay`: wait `ms` (0 when absent) and report the delay. */
  function ExecuteDelay(payload: Payload): (r: Result<ExecResult, string>)
    ensures payload.NullPayload? ==> r == Failure(NullFieldError("ms"))
    ensures payload.Fields? ==>
      r.Success? && r.value.status == Completed && r.value.error.None?
      && r.value.result == Some(Delayed(payload.ms.GetOr(0)))
  {
    match payload
    case NullPayload => Failure(NullFieldError("ms"))
    case Fields(ms, _) => Success(ExecResult(Completed, Some(Delayed(ms.GetOr(0))), None))
  }

  /** `executeHttpGet`: fetch `url` and describe the answer. Only a
      request that got no response at all is a FAILED execution; an HTTP
      error status is a COMPLETED one carrying that status. */
  function ExecuteHttpGet(payload: Payload, http: HttpOutcome): (r: Result<ExecResult, string>)
    ensures payload.NullPayload? ==> r == Failure(NullFieldError("url"))
    ensures payload.Fields? && !Truthy(payload.url) ==>
      r == Success(ExecResult(Failed, None, Some(UrlRequiredError)))
    ensures payload.Fields? && Truthy(payload.url) ==> r.Success?
    ensures payload.Fields? && Truthy(payload.url) && http.HttpResponse? ==>
      var v := r.value;
      && v.status == Completed && v.error.None? && v.result.Some? && v.result.value.HttpReply?
      && v.result.value.status == http.status && v.result.value.body == Some(http.body)
      && v.result.value.bytesReturned == http.bytesReturned && v.result.value.error.None?
      && (v.result.value.truncated <==> http.bytesReturned >= MaxBytes)
    ensures payload.Fields? && Truthy(payload.url) && http.HttpErrorResponse? ==>
      var v := r.value;
      && v.status == Completed && v.error.None?
      && v.result == Some(HttpReply(http.status, Some(http.body), false, http.bytesReturned, Some(http.message)))
    ensures payload.Fields? && Truthy(payload.url) && http.HttpNoResponse? ==>
      var v := r.value;
      && v.status == Failed && v.error == Some(http.message)
      && v.result == Some(HttpReply(0, None, false, 0, Some(http.message)))
  {
    match payload
    case NullPayload => Failure(NullFieldError("url"))
    case Fields(_, url) =>
      if !Truthy(url) then Success(ExecResult(Failed, None, Some(UrlRequiredError)))
      else
        match http
        case HttpResponse(status, body, bytes) =>
          Success(ExecResult(Completed, Some(HttpReply(status, Some(body), bytes >= MaxBytes, bytes, None)), None))
        case HttpErrorResponse(status, body, bytes, message) =>
          Success(ExecResult(Completed, Some(HttpReply(status, Some(body), false, bytes, Some(message))), None))
        case HttpNoResponse(message) =>
          Success(ExecResult(Failed, Some(HttpReply(0, None, false, 0, Some(message))), Some(message)))
  }

  /** `execute`: dispatch on the type string; an unknown type and a
      handler that throws both become FAILED outcomes. Every outcome
      carries an error exactly when it is FAILED. */
  function Execute(kind: string, payload: Payload, http: HttpOutcome): (r: ExecResult)
    ensures r.status == Failed <==> r.error.Some?
    ensures kind != "DELAY" && kind != "HTTP_GET_JSON" ==>
      r == ExecResult(Failed, None, Some(UnknownTypeError(kind)))
    ensures kind == "DELAY" && payload.Fields? ==>
      r == ExecResult(Completed, Some(Delayed(payload.ms.GetOr(0))), None)
    ensures kind == "HTTP_GET_JSON" && payload.Fields? && !Truthy(payload.url) ==>
      r == ExecResult(Failed, None, Some(UrlRequiredError))
    ensures kind == "DELAY" && payload.NullPayload? ==>
      r == ExecResult(Failed, None, Some(NullFieldError("ms")))
    ensures kind == "HTTP_GET_JSON" && payload.NullPayload? ==>
      r == ExecResult(Failed, None, Some(NullFieldError("url")))
    ensures kind == "HTTP_GET_JSON" && payload.Fields? && Truthy(payload.url) ==>
      r == ExecuteHttpGet(payload, http).value
  {
    var handled :=
      if kind == "DELAY" then ExecuteDelay(payload)
      else if kind == "HTTP_GET_JSON" then ExecuteHttpGet(payload, http)
      else Success(ExecResult(Failed, None, Some(UnknownTypeError(kind))));
    match handled
    case Success(v) => v
    case Failure(message) => ExecResult(Failed, None, Some(message))
  }

  /** A DELAY never depends on the network, and never fails on a
      non-null payload. */
  lemma DelayIgnoresNetwork(payload: Payload, h1: HttpOutcome, h2: HttpOutcome)
    ensures Execute("DELAY", payload, h1) == Execute("DELAY", payload, h2)
    ensures payload.Fields? ==> Execute("DELAY", payload, h1).status == Completed
  {
  }

  /** An HTTP_GET_JSON with a url FAILS exactly when no response came back. */
  lemma {:induction false} HttpFailsOnlyWithoutResponse(payload: Payload, http: HttpOutcome)
    requires payload.Fields? && Truthy(payload.url)
    ensures Execute("HTTP_GET_JSON", payload, http).status == Failed <==> http.HttpNoResponse?
  {
  }
}

=== FILE: command_model.dfy ===
/** The coordinator's `Command` record (the `commands` table) and the
    invariants a store of such records is expected to keep. */
module CommandModel {
  import opened Wrappers
  import opened Search

  /** The column `status`: exactly one of four values. */
  datatype Status = Pending | Running | Completed | Failed

  /** The statuses a worker can report or log: the terminal ones. */
  type Outcome = s: Status | s == Completed || s == Failed witness Completed

  /** Abstract clock value standing for a `Date`. */
  type Tick = nat

  /** The JSON `payload`, seen through the only two fields any handler
      reads. A JSON `null` payload is kept apart because reading a field
      of it throws. */
  datatype Payload = NullPayload | Fields(ms: Option<int>, url: Option<string>)

  /** The JSON `result` objects the executor produces. */
  datatype ResultValue =
    | Delayed(delayedMs: int)
    | HttpReply(status: int, body: Option<string>, truncated: bool, bytesReturned: nat, error: Option<string>)

  /** One row of `commands`. The source's `type` column is `kind` here
      (`type` is a Dafny keyword); it is a free string, so values other
      than DELAY and HTTP_GET_JSON can be stored. Nullable columns are
      `Option`s; `attempt` is an unbounded integer. */
  datatype Command = Command(
    id: string,
    kind: string,
    payload: Payload,
    status: Status,
    agentId: Option<string>,
    attempt: int,
    result: Option<ResultValue>,
    error: Option<string>,
    startedAt: Option<Tick>,
    completedAt: Option<Tick>,
    isIdempotent: bool)

  /** The table, in creation order (the order of `createdAt ASC`). */
  type Store = seq<Command>

  /** Error text written when a crashed agent's command is failed. */
  const CrashError: string := "Agent crashed during execution"

  /** JavaScript truthiness of a nullable string: null and "" are falsy. */
  predicate Truthy(s: Option<string>) {
    s.Some? && s.value != ""
  }

  predicate IsPending(c: Command) {
    c.status == Pending
  }

  /** Selector for a primary-key lookup. */
  function IdIs(id: string): Command -> bool {
    (c: Command) => c.id == id
  }

  /** Selector for the RUNNING command owned by `agentId`. */
  function RunningFor(agentId: string): Command -> bool {
    (c: Command) => c.status == Running && c.agentId == Some(agentId)
  }

  /** Position of the row with primary key `id`. */
  function IndexOf(s: Store, id: string): Option<nat> {
    FirstIndex(s, IdIs(id))
  }

  /** Position of the oldest PENDING row. */
  function OldestPending(s: Store): Option<nat> {
    FirstIndex(s, IsPending)
  }

  predicate HasId(s: Store, id: string) {
    exists i :: 0 <= i < |s| && s[i].id == id
  }

  predicate NoPending(s: Store) {
    forall i :: 0 <= i < |s| ==> s[i].status != Pending
  }

  /** Fields fixed at creation: id, type, payload and the retry policy. */
  predicate SameIdentity(c: Command, c': Command) {
    c.id == c'.id && c.kind == c'.kind && c.payload == c'.payload && c.isIdempotent == c'.isIdempotent
  }

  /** `id` is the primary key. */
  ghost predicate UniqueIds(s: Store) {
    forall i, j :: 0 <= i < |s| && 0 <= j < |s| && s[i].id == s[j].id ==> i == j
  }

  /** Every RUNNING row names the agent that holds it. */
  ghost predicate RunningOwned(s: Store) {
    forall i :: 0 <= i < |s| && s[i].status == Running ==> s[i].agentId.Some?
  }

  ghost predicate AttemptsNonNegative(s: Store) {
    forall i :: 0 <= i < |s| ==> s[i].attempt >= 0
  }

  /** No agent holds two RUNNING commands. */
  ghost predicate AtMostOneRunningPerAgent(s: Store) {
    forall i, j ::
      (0 <= i < |s| && 0 <= j < |s| && s[i].status == Running && s[j].status == Running
       && s[i].agentId == s[j].agentId) ==> i == j
  }

  /** The invariant every coordinator entry point keeps. */
  ghost predicate Valid(s: Store) {
    UniqueIds(s) && RunningOwned(s) && AttemptsNonNegative(s) && AtMostOneRunningPerAgent(s)
  }

  /** `t` extends `s`: old rows keep their place and identity and no
      attempt count goes down; rows may be appended. */
  ghost predicate Grows(s: Store, t: Store) {
    |s| <= |t| && forall i :: 0 <= i < |s| ==> SameIdentity(s[i], t[i]) && s[i].attempt <= t[i].attempt
  }

  /** `t` is `s` after some rows changed in place: it grows from `s`
      without any row being added. */
  ghost predicate Evolves(s: Store, t: Store) {
    |t| == |s| && Grows(s, t)
  }

  /** `t` is `s` with nothing but statuses, owners, outcomes and
      timestamps possibly changed: in particular every attempt count is kept. */
  ghost predicate KeepsAttempts(s: Store, t: Store) {
    |t| == |s| && forall i :: 0 <= i < |s| ==> SameIdentity(s[i], t[i]) && s[i].attempt == t[i].attempt
  }

  /** Under a primary key, the row found by `IndexOf` is the only one with that id. */
  lemma {:induction false} IndexOfUnique(s: Store, id: string, k: nat)
    requires UniqueIds(s)
    requires k < |s| && s[k].id == id
    ensures IndexOf(s, id) == Some(k)
  {
    var r := IndexOf(s, id);
    assert IdIs(id)(s[k]);
    assert r.Some?;
    assert s[r.value].id == id;
  }
}

=== FILE: command_service.dfy ===
/** The coordinator's command store operations (`CommandService`): each
    database read-modify-write is one pure transition of the store. */
module CommandService {
  import opened Wrappers
  import opened Search
  import opened CommandModel

  /** The store after an operation, with the row the operation returns
      (`None` where the source returns null). */
  datatype Reply = Reply(store: Store, command: Option<Command>)

  /** `createCommand`: append a fresh PENDING row. The id is the caller's
      (the source draws a uuid); an id already present violates the
      primary key, and a JSON null payload violates the non-null
      `payload` column; either way the insert fails. */
  function CreateCommand(s: Store, id: string, kind: string, payload: Payload, isIdempotent: bool): (r: Reply)
    ensures r.command.Some? <==> !HasId(s, id) && payload != NullPayload
    ensures r.command.None? ==> r.store == s
    ensures r.command.Some? ==> r.store == s + [r.command.value]
    ensures r.command.Some? ==>
      var c := r.command.value;
      && c.id == id && c.kind == kind && c.payload == payload && c.isIdempotent == isIdempotent
      && c.status == Pending && c.attempt == 0
      && c.agentId.None? && c.result.None? && c.error.None? && c.startedAt.None? && c.completedAt.None?
  {
    if HasId(s, id) || payload.NullPayload? then Reply(s, None)
    else
      var c := Command(id, kind, payload, Pending, None, 0, None, None, None, None, isIdempotent);
      Reply(s + [c], Some(c))
  }

  /** `getCommand`: primary-key lookup. */
  function GetCommand(s: Store, id: string): (r: Option<Command>)
    ensures r.Some? <==> HasId(s, id)
    ensures r.Some? ==> r.value in s && r.value.id == id
  {
    First(s, IdIs(id))
  }

  /** `findRunningCommandForAgent`: a RUNNING row owned by `agentId`. */
  function FindRunningCommandForAgent(s: Store, agentId: string): (r: Option<Command>)
    ensures r.Some? ==> r.value in s && r.value.status == Running && r.value.agentId == Some(agentId)
    ensures r.None? <==> forall i :: 0 <= i < |s| ==> !(s[i].status == Running && s[i].agentId == Some(agentId))
  {
    First(s, RunningFor(agentId))
  }

  /** `markCommandAsFailed`: force FAILED with `error`, whatever the prior
      status; the owner, attempt count and result are kept. */
  function MarkCommandAsFailed(s: Store, id: string, error: string, now: Tick): (r: Reply)
    ensures r.command.Some? <==> HasId(s, id)
    ensures r.command.None? ==> r.store == s
    ensures |r.store| == |s|
    ensures IndexOf(s, id).Some? ==>
      var i := IndexOf(s, id).value;
      && (forall j :: 0 <= j < |s| && j != i ==> r.store[j] == s[j])
      && r.store[i].status == Failed && r.store[i].error == Some(error) && r.store[i].completedAt == Some(now)
      && r.store[i].(status := s[i].status, error := s[i].error, completedAt := s[i].completedAt) == s[i]
      && r.command == Some(r.store[i])
  {
    match IndexOf(s, id)
    case None => Reply(s, None)
    case Some(i) =>
      var c := s[i].(status := Failed, error := Some(error), completedAt := Some(now));
      Reply(s[i := c], Some(c))
  }

  /** `getNextPendingCommand`: hand the oldest PENDING row to `agentId`,
      counting one more attempt. */
  function GetNextPendingCommand(s: Store, agentId: string, now: Tick): (r: Reply)
    ensures r.command.None? <==> NoPending(s)
    ensures r.command.None? ==> r.store == s
    ensures |r.store| == |s|
    ensures OldestPending(s).Some? ==>
      var i := OldestPending(s).value;
      && s[i].status == Pending
      && (forall j :: 0 <= j < i ==> s[j].status != Pending)
      && (forall j :: 0 <= j < |s| && j != i ==> r.store[j] == s[j])
      && r.store[i].status == Running && r.store[i].agentId == Some(agentId)
      && r.store[i].attempt == s[i].attempt + 1 && r.store[i].startedAt == Some(now)
      && r.store[i].(status := s[i].status, agentId := s[i].agentId, attempt := s[i].attempt,
                     startedAt := s[i].startedAt) == s[i]
      && r.command == Some(r.store[i])
  {
    match OldestPending(s)
    case None => Reply(s, None)
    case Some(i) =>
      var c := s[i].(status := Running, agentId := Some(agentId), startedAt := Some(now), attempt := s[i].attempt + 1);
      Reply(s[i := c], Some(c))
  }

  /** Selector of `updateCommandResult`'s guarded lookup. */
  function OwnedRunning(commandId: string, agentId: string): Command -> bool {
    (c: Command) => c.id == commandId && c.agentId == Some(agentId) && c.status == Running
  }

  /** `updateCommandResult`: a report lands only on a RUNNING row owned by
      the reporter. `result` is written only when present and `error` only
      when truthy; the owner is not cleared. */
  function UpdateCommandResult(s: Store, commandId: string, agentId: string, status: Outcome,
                               result: Option<ResultValue>, error: Option<string>, now: Tick): (r: Reply)
    ensures r.command.None? <==>
      forall i :: 0 <= i < |s| ==> !(s[i].id == commandId && s[i].agentId == Some(agentId) && s[i].status == Running)
    ensures r.command.None? ==> r.store == s
    ensures |r.store| == |s|
    ensures r.command.Some? ==>
      var i := FirstIndex(s, OwnedRunning(commandId, agentId)).value;
      && s[i].id == commandId && s[i].status == Running && s[i].agentId == Some(agentId)
      && (forall j :: 0 <= j < |s| && j != i ==> r.store[j] == s[j])
      && r.store[i].status == status && r.store[i].completedAt == Some(now)
      && r.store[i].agentId == Some(agentId)
      && (result.Some? ==> r.store[i].result == result)
      && (result.None? ==> r.store[i].result == s[i].result)
      && (Truthy(error) ==> r.store[i].error == error)
      && (!Truthy(error) ==> r.store[i].error == s[i].error)
      && r.store[i].(status := s[i].status, result := s[i].result, error := s[i].error,
                     completedAt := s[i].completedAt) == s[i]
      && r.command == Some(r.store[i])
  {
    match FirstIndex(s, OwnedRunning(commandId, agentId))
    case None => Reply(s, None)
    case Some(i) =>
      var c := s[i].(status := status, completedAt := Some(now),
                     result := if result.Some? then result else s[i].result,
                     error := if Truthy(error) then error else s[i].error);
      Reply(s[i := c], Some(c))
  }

  /** Round trip: for a fresh id, `getCommand` afterwards finds exactly
      what `createCommand` returned: the new row, or nothing when the
      insert failed. */
  lemma {:induction false} CreateThenGet(s: Store, id: string, kind: string, payload: Payload, isIdempotent: bool)
    requires !HasId(s, id)
    ensures GetCommand(CreateCommand(s, id, kind, payload, isIdempotent).store, id)
         == CreateCommand(s, id, kind, payload, isIdempotent).command
  {
    var r := CreateCommand(s, id, kind, payload, isIdempotent);
    var g := GetCommand(r.store, id);
    if r.command.Some? {
      assert r.store[|s|].id == id;
      assert g.Some?;
      var k :| 0 <= k < |r.store| && r.store[k] == g.value;
      assert k == |s|;
    }
  }

  /** Assignment followed by the owner's report completes the command;
      the same report from any other agent is ignored. */
  lemma {:induction false} AssignThenReport(s: Store, a: string, b: string, status: Outcome,
                                            result: Option<ResultValue>, error: Option<string>, t1: Tick, t2: Tick)
    requires UniqueIds(s)
    requires !NoPending(s)
    requires a != b
    ensures
      var given := GetNextPendingCommand(s, a, t1);
      var c := given.command.value;
      && UpdateCommandResult(given.store, c.id, a, status, result, error, t2).command.Some?
      && UpdateCommandResult(given.store, c.id, a, status, result, error, t2).command.value.status == status
      && UpdateCommandResult(given.store, c.id, b, status, result, error, t2) == Reply(given.store, None)
  {
    var given := GetNextPendingCommand(s, a, t1);
    var i := OldestPending(s).value;
    var c := given.command.value;
    assert given.store[i] == c;
    var ra := UpdateCommandResult(given.store, c.id, a, status, result, error, t2);
    assert ra.command.Some?;
  }
}

=== FILE: execution_log.dfy ===
/** The agent side's execution log (`command_logs`): one entry per
    attempt that ran to an outcome, keyed by command id. */
module ExecutionLog {
  import opened Wrappers
  import opened Search
  import opened CommandModel

  datatype LogEntry = LogEntry(commandId: string, agentId: string, status: Outcome,
                               result: Option<ResultValue>, error: Option<string>)

  /** The table, in insertion order. */
  type LogStore = seq<LogEntry>

  function ForCommand(commandId: string): LogEntry -> bool {
    (e: LogEntry) => e.commandId == commandId
  }

  /** `getLogByCommandId`: some entry for `commandId`. The query has no
      ordering, so which of several entries comes back is not promised. */
  function GetLogByCommandId(logs: LogStore, commandId: string): (r: Option<LogEntry>)
    ensures r.Some? ==> r.value in logs && r.value.commandId == commandId
    ensures r.None? <==> forall i :: 0 <= i < |logs| ==> logs[i].commandId != commandId
  {
    First(logs, ForCommand(commandId))
  }

  /** `saveLog`: append one entry. A helper of the model: the worker's log
      table is a plain sequence, and what the saved entry means is stated
      by `SaveThenGet` and by `Polling.PollForWork`. */
  function SaveLog(logs: LogStore, e: LogEntry): LogStore {
    logs + [e]
  }

  /** The first entry saved for a command is the one looked up afterwards,
      and saving it leaves the lookups of other commands as they were. */
  lemma {:induction false} SaveThenGet(logs: LogStore, e: LogEntry, other: string)
    requires GetLogByCommandId(logs, e.commandId).None?
    requires other != e.commandId
    ensures GetLogByCommandId(SaveLog(logs, e), e.commandId) == Some(e)
    ensures GetLogByCommandId(SaveLog(logs, e), other) == GetLogByCommandId(logs, other)
  {
    var l := SaveLog(logs, e);
    assert l[|logs|] == e;
    var k := FirstIndex(l, ForCommand(e.commandId)).value;
    assert k == |logs|;
    var p := ForCommand(other);
    match FirstIndex(logs, p)
    case None =>
      assert forall j :: 0 <= j < |l| ==> !p(l[j]);
    case Some(m) =>
      assert p(l[m]);
      var n := FirstIndex(l, p).value;
      assert n <= m;
      assert l[n] == logs[n];
  }
}

=== FILE: lifecycle.dfy ===
/** The coordinator as a whole: every entry point as one transition of
    the store, and what holds over any sequence of them. */
module Lifecycle {
  import opened Wrappers
  import opened CommandModel
  import opened CommandService
  import opened CommandController
  import opened Recovery

  /** The coordinator's entry points: a client submitting a command, an
      agent polling, an agent reporting, and a restart running the
      recovery sweep with the agent side's answers. */
  datatype Op =
    | Submit(id: string, kind: Option<string>, payload: Option<Payload>)
    | Poll(pollerId: Option<string>)
    | Complete(commandId: string, agentId: string, status: Outcome, result: Option<ResultValue>, error: Option<string>)
    | Restart(logs: string -> LogAnswer, live: string -> Liveness)

  datatype Step = Step(op: Op, at: Tick)

  function Apply(s: Store, op: Op, now: Tick): Store {
    match op
    case Submit(id, kind, payload) => Create(s, id, kind, payload).store
    case Poll(agentId) => Next(s, agentId, now).store
    case Complete(cid, aid, st, res, err) => UpdateCommandResult(s, cid, aid, st, res, err, now).store
    case Restart(logs, live) => Sweep(s, logs, live, now)
  }

  function Run(s: Store, steps: seq<Step>): Store
    decreases |steps|
  {
    if |steps| == 0 then s else Run(Apply(s, steps[0].op, steps[0].at), steps[1..])
  }

  /** A report keeps the store invariant and every attempt count. */
  lemma {:induction false} CompletePreservesValid(s: Store, cid: string, aid: string, st: Outcome,
                                                  res: Option<ResultValue>, err: Option<string>, now: Tick)
    requires Valid(s)
    ensures Valid(UpdateCommandResult(s, cid, aid, st, res, err, now).store)
    ensures KeepsAttempts(s, UpdateCommandResult(s, cid, aid, st, res, err, now).store)
  {
    var r := UpdateCommandResult(s, cid, aid, st, res, err, now).store;
    forall i | 0 <= i < |s|
      ensures SameIdentity(s[i], r[i]) && r[i].attempt == s[i].attempt
      ensures r[i].status == Running ==> r[i] == s[i]
    {
    }
  }

  /** A submission keeps the store invariant and appends at most one row. */
  lemma {:induction false} SubmitPreservesValid(s: Store, id: string, kind: Option<string>, payload: Option<Payload>)
    requires Valid(s)
    ensures Valid(Create(s, id, kind, payload).store)
    ensures Grows(s, Create(s, id, kind, payload).store)
  {
    var r := Create(s, id, kind, payload);
    if r.response.Created? {
      assert r.store[..|s|] == s;
      forall i | 0 <= i < |s|
        ensures r.store[i] == s[i]
      {
        assert r.store[..|s|][i] == r.store[i];
      }
      forall i, j | 0 <= i < |r.store| && 0 <= j < |r.store| && r.store[i].id == r.store[j].id
        ensures i == j
      {
      }
    }
  }

  /** Every entry point keeps the store invariant (ids unique, RUNNING
      rows owned, attempts non-negative, one RUNNING command per agent),
      and none lowers an attempt count or rewrites an identity field.
      Only a poll can raise an attempt count. */
  lemma {:induction false} ApplyPreservesValid(s: Store, op: Op, now: Tick)
    requires Valid(s)
    ensures Valid(Apply(s, op, now))
    ensures Grows(s, Apply(s, op, now))
    ensures !op.Poll? ==> forall i :: 0 <= i < |s| ==> Apply(s, op, now)[i].attempt == s[i].attempt
  {
    match op
    case Submit(id, kind, payload) =>
      SubmitPreservesValid(s, id, kind, payload);
      var r := Create(s, id, kind, payload);
      if r.response.Created? {
        assert forall i :: 0 <= i < |s| ==> r.store[..|s|][i] == r.store[i];
      }
    case Poll(agentId) => NextPreservesValid(s, agentId, now);
    case Complete(cid, aid, st, res, err) => CompletePreservesValid(s, cid, aid, st, res, err, now);
    case Restart(logs, live) => SweepPreservesValid(s, logs, live, now);
  }

  /** Over any run of entry points from a valid store: the store stays
      valid, and no command's attempt count ever goes down. */
  lemma {:induction false} RunPreservesValid(s: Store, steps: seq<Step>)
    requires Valid(s)
    ensures Valid(Run(s, steps))
    ensures Grows(s, Run(s, steps))
    decreases |steps|
  {
    if |steps| > 0 {
      var t := Apply(s, steps[0].op, steps[0].at);
      ApplyPreservesValid(s, steps[0].op, steps[0].at);
      RunPreservesValid(t, steps[1..]);
    }
  }
}

=== FILE: polling.dfy ===
/** The worker's poll loop (`PollingService`): which agents loop, the
    guard of one poll, and the effects of handling one command: the agent
    is RUNNING during execution, the outcome is logged before it is
    reported, and the agent is ACTIVE again afterwards whatever happened.
    The coordinator's answer, the network answer of the command itself,
    and whether the log write and the report succeed are inputs. */
module Polling {
  import opened Wrappers
  import opened AgentRegistry
  import CM = CommandModel
  import opened ExecutionLog
  import opened CommandExecutor

  /** The body of a 200 answer to `GET /api/commands/next`. */
  datatype Assignment = Assignment(commandId: string, kind: string, payload: CM.Payload)

  /** What the poll request yields: a 200 with a command, a 200 with an
      empty body, a 204, an error status, or no answer. */
  datatype PollAnswer = Assigned(work: Assignment) | EmptyBody | NoContent | ErrorStatus(code: int) | NoAnswer

  /** The `PATCH /api/commands/:id` request body. */
  datatype Report = Report(commandId: string, agentId: string, status: CM.Outcome,
                           result: Option<CM.ResultValue>, error: Option<string>)

  /** Effects of one poll: the table while the command runs (if one was
      taken), the table after, the log store after, the report sent (if
      any) and whether the coordinator acknowledged it. */
  datatype PollEffect = PollEffect(busy: Option<Registry>, agents: Registry, logs: LogStore,
                                   report: Option<Report>, delivered: bool)

  /** `startPolling`: a loop starts for each agent ACTIVE at call time. */
  function StartPolling(agents: Registry, looping: set<string>): (r: set<string>)
    ensures forall id :: id in r <==>
      id in looping || exists i :: 0 <= i < |agents| && agents[i].id == id && agents[i].state == Active
  {
    var active := GetActiveAgents(agents);
    assert forall i :: 0 <= i < |agents| && agents[i].state == Active ==> agents[i] in active;
    looping + set a | a in active :: a.id
  }

  /** `stopPolling`: every loop is cleared. */
  function StopPolling(looping: set<string>): (r: set<string>)
    ensures r == {}
    ensures forall id :: id in looping ==> id !in r
  {
    {}
  }

  /** A poll that takes no command: nothing changes. */
  function Idle(agents: Registry, logs: LogStore): PollEffect {
    PollEffect(None, agents, logs, None, false)
  }

  /** `handleCommand` with `reportResult`: mark RUNNING, execute, save the
      log, report, and in every case mark ACTIVE again. A log write that
      throws skips the report; a report that fails is swallowed. */
  function HandleCommand(agents: Registry, logs: LogStore, agentId: string, work: Assignment,
                         http: HttpOutcome, logSaved: bool, reportDelivered: bool): PollEffect
  {
    var busy := MarkAsRunning(agents, agentId, work.commandId);
    var out := Execute(work.kind, work.payload, http);
    var entry := LogEntry(work.commandId, agentId, out.status, out.result, out.error);
    var report := Report(work.commandId, agentId, out.status, out.result, out.error);
    PollEffect(Some(busy), MarkAsActive(busy, agentId),
               if logSaved then SaveLog(logs, entry) else logs,
               if logSaved then Some(report) else None,
               logSaved && reportDelivered)
  }

  /** The polling agent is known and ACTIVE. */
  predicate ReadyToPoll(agents: Registry, agentId: string) {
    GetAgent(agents, agentId).Some? && GetAgent(agents, agentId).value.state == Active
  }

  /** `pollForWork`: an agent that is unknown or not ACTIVE does not poll;
      only a 200 answer with a command body is handled. */
  function PollForWork(agents: Registry, logs: LogStore, agentId: string, answer: PollAnswer,
                       http: HttpOutcome, logSaved: bool, reportDelivered: bool): (r: PollEffect)
    ensures !(ReadyToPoll(agents, agentId) && answer.Assigned?) ==> r == Idle(agents, logs)
    ensures r.busy.Some? <==> ReadyToPoll(agents, agentId) && answer.Assigned?
    ensures r.busy.Some? ==>
      var a := GetAgent(r.busy.value, agentId);
      a.Some? && a.value.state == Running && a.value.currentCommandId == Some(answer.work.commandId)
    ensures r.busy.Some? ==>
      var a := GetAgent(r.agents, agentId);
      a.Some? && a.value.state == Active && a.value.currentCommandId.None?
    ensures |r.agents| == |agents| && forall i :: 0 <= i < |agents| ==> r.agents[i].id == agents[i].id
    ensures r.busy.Some? ==> |r.busy.value| == |agents|
    ensures r.busy.Some? ==>
      forall i :: 0 <= i < |agents| && AgentIndex(agents, agentId) != Some(i) ==>
        r.busy.value[i] == agents[i] && r.agents[i] == agents[i]
    ensures r.report.Some? <==> r.busy.Some? && logSaved
    ensures r.report.Some? ==>
      var rep := r.report.value;
      && rep.agentId == agentId && rep.commandId == answer.work.commandId
      && r.logs == logs + [LogEntry(rep.commandId, rep.agentId, rep.status, rep.result, rep.error)]
      && ExecResult(rep.status, rep.result, rep.error) == Execute(answer.work.kind, answer.work.payload, http)
    ensures r.report.None? ==> r.logs == logs
    ensures r.delivered <==> r.report.Some? && reportDelivered
  {
    if ReadyToPoll(agents, agentId) && answer.Assigned? then
      var r := HandleCommand(agents, logs, agentId, answer.work, http, logSaved, reportDelivered);
      RunThenActiveFrame(agents, agentId, answer.work.commandId);
      r
    else Idle(agents, logs)
  }

  /** A report that fails changes nothing on the worker: the agent is
      released and the log kept exactly as when it succeeds. */
  lemma ReportFailureSwallowed(agents: Registry, logs: LogStore, agentId: string, answer: PollAnswer,
                               http: HttpOutcome, logSaved: bool)
    ensures
      var ok := PollForWork(agents, logs, agentId, answer, http, logSaved, true);
      var lost := PollForWork(agents, logs, agentId, answer, http, logSaved, false);
      lost == ok.(delivered := false)
  {
  }

  /** On a well-formed table a poll leaves the table exactly as it found
      it, whatever the command, its execution, the log write or the
      report did. */
  lemma {:induction false} PollRestoresRegistry(agents: Registry, logs: LogStore, agentId: string, answer: PollAnswer,
                                                http: HttpOutcome, logSaved: bool, reportDelivered: bool)
    requires WellFormed(agents)
    ensures PollForWork(agents, logs, agentId, answer, http, logSaved, reportDelivered).agents == agents
    ensures
      var r := PollForWork(agents, logs, agentId, answer, http, logSaved, reportDelivered);
      r.busy.Some? ==> WellFormed(r.busy.value)
  {
    if ReadyToPoll(agents, agentId) && answer.Assigned? {
      RunThenActiveRestores(agents, agentId, answer.work.commandId);
    }
  }
}

=== FILE: recovery.dfy ===
/** The coordinator's crash reconciler (`RecoveryService`): the
    three-step decision for one RUNNING command, and the startup sweep
    that applies it to every RUNNING command. The two queries to the
    agent side are answers passed in, not calls. */
module Recovery {
  import opened Wrappers
  import opened CommandModel
  import opened ExecutionLog

  /** What `GET /logs/:commandId` yields: a body, an HTTP error status,
      or no response at all (timeout, refused connection). */
  datatype LogResponse = LogBody(entry: LogEntry) | LogStatus(code: int) | LogNoResponse

  /** What `GET /agent/status/:agentId` yields. */
  datatype StatusResponse = StatusBody(isRunning: bool) | StatusCode(code: int) | StatusNoResponse

  /** The log query's answer: an entry, an explicit "no entry", or a failure. */
  datatype LogAnswer = Found(entry: LogEntry) | NotFound | QueryError

  /** The liveness query's answer, per agent. */
  datatype Liveness = AgentRunning | AgentNotRunning | AgentUnreachable

  /** `fetchCommandLogs`: a 404 is the only "no entry"; any other failure
      is an error that aborts recovery of the command. */
  function FetchCommandLogs(resp: LogResponse): (a: LogAnswer)
    ensures a.Found? <==> resp.LogBody?
    ensures a.Found? ==> a.entry == resp.entry
    ensures a.NotFound? <==> resp == LogStatus(404)
  {
    match resp
    case LogBody(e) => Found(e)
    case LogStatus(code) => if code == 404 then NotFound else QueryError
    case LogNoResponse => QueryError
  }

  /** The answer the agent side's log endpoint (`getByCommandId`) gives
      from its log store: the entry, or 404 when there is none. A helper
      that lets the scenarios compute recovery's log answers from the
      worker's own table. */
  function ServeLog(logs: LogStore, commandId: string): LogResponse {
    match GetLogByCommandId(logs, commandId)
    case Some(e) => LogBody(e)
    case None => LogStatus(404)
  }

  /** `isAgentRunningCommand` with the three answers kept apart: only a
      body saying `isRunning: true` counts as running. */
  function AgentLiveness(resp: StatusResponse): (l: Liveness)
    ensures l == AgentRunning <==> resp == StatusBody(true)
    ensures l == AgentNotRunning <==> resp == StatusBody(false)
  {
    match resp
    case StatusBody(b) => if b then AgentRunning else AgentNotRunning
    case StatusCode(_) => AgentUnreachable
    case StatusNoResponse => AgentUnreachable
  }

  /** `updateCommandFromLogs`: the log entry's outcome becomes the command's. */
  function UpdateCommandFromLogs(c: Command, e: LogEntry, now: Tick): (r: Command)
    ensures r.status == e.status && r.result == e.result && r.error == e.error
    ensures r.completedAt == Some(now)
    ensures r.(status := c.status, result := c.result, error := c.error, completedAt := c.completedAt) == c
  {
    c.(status := e.status, result := e.result, error := e.error, completedAt := Some(now))
  }

  /** `handleCrashedAgent`: requeue an idempotent command (keeping its
      owner and attempt count), fail any other with the crash error. */
  function HandleCrashedAgent(c: Command, now: Tick): (r: Command)
    ensures c.isIdempotent ==> r.status == Pending && r.(status := c.status) == c
    ensures !c.isIdempotent ==>
      && r.status == Failed && r.error == Some(CrashError) && r.completedAt == Some(now)
      && r.(status := c.status, error := c.error, completedAt := c.completedAt) == c
  {
    if c.isIdempotent then c.(status := Pending)
    else c.(status := Failed, error := Some(CrashError), completedAt := Some(now))
  }

  /** `recoverCommand`: logs first, then liveness, then the idempotency
      policy; a failed log query leaves the command untouched. */
  function RecoverCommand(c: Command, log: LogAnswer, live: Liveness, now: Tick): (r: Command)
    ensures SameIdentity(c, r) && r.attempt == c.attempt && r.agentId == c.agentId && r.startedAt == c.startedAt
    ensures log.Found? ==>
      r.status == log.entry.status && r.result == log.entry.result && r.error == log.entry.error
      && r.completedAt == Some(now)
    ensures log.QueryError? ==> r == c
    ensures log.NotFound? && live == AgentRunning ==> r == c
    ensures log.NotFound? && live != AgentRunning && c.isIdempotent ==> r.status == Pending && r.(status := c.status) == c
    ensures log.NotFound? && live != AgentRunning && !c.isIdempotent ==>
      r.status == Failed && r.error == Some(CrashError) && r.completedAt == Some(now) && r.result == c.result
    ensures r.status == Running ==> r == c
  {
    match log
    case QueryError => c
    case Found(e) => UpdateCommandFromLogs(c, e, now)
    case NotFound =>
      if live == AgentRunning then c
      else HandleCrashedAgent(c, now)
  }

  /** The agent id the liveness query is sent for: the owner, or the text
      "null" that a template string makes of a missing one. */
  function AgentKey(c: Command): string {
    if c.agentId.Some? then c.agentId.value else "null"
  }

  /** One row's fate in the sweep: RUNNING rows are recovered, others kept. */
  function SweepStep(c: Command, logs: string -> LogAnswer, live: string -> Liveness, now: Tick): Command {
    if c.status == Running then RecoverCommand(c, logs(c.id), live(AgentKey(c)), now) else c
  }

  /** Reference definition of the startup sweep. */
  function Sweep(s: Store, logs: string -> LogAnswer, live: string -> Liveness, now: Tick): Store {
    seq(|s|, i requires 0 <= i < |s| => SweepStep(s[i], logs, live, now))
  }

  /** `runStartupRecovery`, from the point where the agent service has
      answered its health check: visit the RUNNING rows of the snapshot
      one at a time and save each one's recovery. Log answers are looked
      up by command id and liveness answers by agent id. */
  method RunStartupRecovery(s: Store, logs: string -> LogAnswer, live: string -> Liveness, now: Tick)
    returns (t: Store)
    ensures |t| == |s|
    ensures forall i :: 0 <= i < |s| && s[i].status != Running ==> t[i] == s[i]
    ensures forall i :: 0 <= i < |s| && s[i].status == Running ==>
      t[i] == RecoverCommand(s[i], logs(s[i].id), live(AgentKey(s[i])), now)
    ensures t == Sweep(s, logs, live, now)
  {
    t := s;
    var i := 0;
    while i < |s|
      invariant 0 <= i <= |s|
      invariant |t| == |s|
      invariant forall j :: 0 <= j < i ==> t[j] == SweepStep(s[j], logs, live, now)
      invariant forall j :: i <= j < |s| ==> t[j] == s[j]
    {
      var c := s[i];
      if c.status == Running {
        t := t[i := RecoverCommand(c, logs(c.id), live(AgentKey(c)), now)];
      }
      i := i + 1;
    }
  }

  /** Row `i` of the sweep is that row's own fate. */
  lemma SweepAt(s: Store, logs: string -> LogAnswer, live: string -> Liveness, now: Tick, i: nat)
    requires i < |s|
    ensures |Sweep(s, logs, live, now)| == |s|
    ensures Sweep(s, logs, live, now)[i] == SweepStep(s[i], logs, live, now)
  {
  }

  /** An unreachable agent is treated exactly as one that says it is not running. */
  lemma UnreachableIsNotRunning(c: Command, log: LogAnswer, now: Tick)
    ensures RecoverCommand(c, log, AgentUnreachable, now) == RecoverCommand(c, log, AgentNotRunning, now)
  {
  }

  /** When a log entry exists, liveness is never consulted. */
  lemma LogOutranksLiveness(c: Command, e: LogEntry, l1: Liveness, l2: Liveness, now: Tick)
    ensures RecoverCommand(c, Found(e), l1, now) == RecoverCommand(c, Found(e), l2, now)
  {
  }

  /** Recovery of a command that stays RUNNING changes nothing when
      repeated with the same answers. */
  lemma {:induction false} SweepStepStable(c: Command, logs: string -> LogAnswer, live: string -> Liveness,
                                           t1: Tick, t2: Tick)
    ensures SweepStep(SweepStep(c, logs, live, t1), logs, live, t2) == SweepStep(c, logs, live, t1)
  {
    var d := SweepStep(c, logs, live, t1);
    if c.status == Running && d.status == Running {
      assert d == c;
    }
  }

  /** Re-running the sweep with the same collaborator answers makes no
      further change, whatever the clock says. */
  lemma {:induction false} SweepIdempotent(s: Store, logs: string -> LogAnswer, live: string -> Liveness,
                                           t1: Tick, t2: Tick)
    ensures Sweep(Sweep(s, logs, live, t1), logs, live, t2) == Sweep(s, logs, live, t1)
  {
    var once := Sweep(s, logs, live, t1);
    var twice := Sweep(once, logs, live, t2);
    forall i | 0 <= i < |s|
      ensures twice[i] == once[i]
    {
      SweepStepStable(s[i], logs, live, t1, t2);
    }
  }

  /** With no RUNNING row the sweep changes nothing. */
  lemma {:induction false} SweepWithoutRunning(s: Store, logs: string -> LogAnswer, live: string -> Liveness, now: Tick)
    requires forall i :: 0 <= i < |s| ==> s[i].status != Running
    ensures Sweep(s, logs, live, now) == s
  {
    var r := Sweep(s, logs, live, now);
    forall i | 0 <= i < |s|
      ensures r[i] == s[i]
    {
    }
  }

  /** The sweep keeps the store invariant, never raises an attempt count,
      and leaves no row RUNNING that was not RUNNING before. */
  lemma {:induction false} SweepPreservesValid(s: Store, logs: string -> LogAnswer, live: string -> Liveness, now: Tick)
    requires Valid(s)
    ensures Valid(Sweep(s, logs, live, now))
    ensures KeepsAttempts(s, Sweep(s, logs, live, now))
    ensures forall i :: 0 <= i < |s| && Sweep(s, logs, live, now)[i].status == Running ==> s[i].status == Running
  {
    var r := Sweep(s, logs, live, now);
    forall i | 0 <= i < |s|
      ensures SameIdentity(s[i], r[i]) && r[i].attempt == s[i].attempt && r[i].agentId == s[i].agentId
      ensures r[i].status == Running ==> r[i] == s[i]
    {
    }
  }
}

=== FILE: scenarios.dfy ===
/** End-to-end runs across coordinator and worker: a command is submitted,
    polled, executed, logged and reported (or not), and the coordinator's
    recovery decides its fate. The agent side's answers to the recovery
    queries are computed from the worker's own log store and agent table. */
module Scenarios {
  import opened Wrappers
  import opened CommandModel
  import opened CommandService
  import opened CommandController
  import opened ExecutionLog
  import opened Recovery
  import AR = AgentRegistry
  import P = Polling
  import X = CommandExecutor

  /** The recovery queries answered by a worker process from its log
      store (the log endpoint) and its agent table (the status endpoint). */
  function LogOracle(logs: LogStore): string -> LogAnswer {
    (cid: string) => FetchCommandLogs(ServeLog(logs, cid))
  }

  function LiveOracle(agents: AR.Registry): string -> Liveness {
    (aid: string) => AgentLiveness(StatusBody(AR.IsAgentRunning(agents, aid)))
  }

  const Delay10: Payload := Fields(Some(10), None)

  /** A one-command store: a DELAY of 10 ms with the given retry policy,
      submitted through the service, then handed to "agent-1". */
  function Submitted(idem: bool): Store {
    CreateCommand([], "c1", "DELAY", Delay10, idem).store
  }

  function Taken(idem: bool, t: Tick): Store {
    Next(Submitted(idem), Some("agent-1"), t).store
  }

  /** The assignment: the command is RUNNING for agent-1 on its first attempt. */
  lemma TakenIsRunning(idem: bool, t: Tick)
    ensures |Taken(idem, t)| == 1
    ensures Taken(idem, t)[0].status == Running && Taken(idem, t)[0].agentId == Some("agent-1")
    ensures Taken(idem, t)[0].attempt == 1 && Taken(idem, t)[0].isIdempotent == idem
    ensures Taken(idem, t)[0] == Command("c1", "DELAY", Delay10, Running, Some("agent-1"), 1, None, None, Some(t), None, idem)
    ensures Next(Submitted(idem), Some("agent-1"), t).response == Work("c1", "DELAY", Delay10)
  {
    var s := Submitted(idem);
    assert s == [Command("c1", "DELAY", Delay10, Pending, None, 0, None, None, None, None, idem)];
    assert OldestPending(s) == Some(0);
    assert FindRunningCommandForAgent(s, "agent-1").None?;
  }

  /** The worker crashes before logging anything and comes back with a
      fresh table; the coordinator restarts and sweeps. An idempotent
      command is PENDING again after one attempt (and still names its
      former owner); any other is FAILED with the crash error. */
  lemma {:induction false} CrashBeforeLog(idem: bool, t1: Tick, t2: Tick, logs: LogStore)
    requires GetLogByCommandId(logs, "c1").None?
    ensures
      var r := Sweep(Taken(idem, t1), LogOracle(logs), LiveOracle(AR.Pool), t2);
      && |r| == 1 && r[0].attempt == 1
      && (idem ==> r[0].status == Pending && r[0].agentId == Some("agent-1"))
      && (!idem ==> r[0].status == Failed && r[0].error == Some(CrashError))
  {
    TakenIsRunning(idem, t1);
    var s := Taken(idem, t1);
    var c := s[0];
    assert LogOracle(logs)(c.id) == NotFound;
    assert AR.AgentIndex(AR.Pool, "agent-1") == Some(0);
    assert LiveOracle(AR.Pool)(AgentKey(c)) == AgentNotRunning;
    SweepAt(s, LogOracle(logs), LiveOracle(AR.Pool), t2, 0);
  }

  /** The poll that takes c1 on the worker: a DELAY of 10 ms completes and is logged. */
  function Worked(delivered: bool): P.PollEffect {
    var table := AR.MarkAsActive(AR.Pool, "agent-1");
    P.PollForWork(table, [], "agent-1", P.Assigned(P.Assignment("c1", "DELAY", Delay10)),
                  X.HttpNoResponse("unused"), true, delivered)
  }

  lemma WorkedLogsCompletion(delivered: bool)
    ensures Worked(delivered).logs == [LogEntry("c1", "agent-1", Completed, Some(Delayed(10)), None)]
    ensures Worked(delivered).report == Some(P.Report("c1", "agent-1", Completed, Some(Delayed(10)), None))
  {
    var table := AR.MarkAsActive(AR.Pool, "agent-1");
    assert AR.AgentIndex(table, "agent-1") == Some(0) by {
      assert AR.AgentIndex(AR.Pool, "agent-1") == Some(0);
      AR.SameIdsSameIndex(AR.Pool, table, "agent-1");
    }
    assert P.ReadyToPoll(table, "agent-1");
  }

  /** The acknowledgement is lost and the coordinator restarts: the log
      entry is taken as ground truth and the command is COMPLETED with the
      logged result, not retried. */
  lemma {:induction false} AckLostThenRestart(idem: bool, t1: Tick, t2: Tick)
    ensures
      var r := Sweep(Taken(idem, t1), LogOracle(Worked(false).logs), LiveOracle(AR.Pool), t2);
      r[0].status == Completed && r[0].result == Some(Delayed(10)) && r[0].attempt == 1
  {
    TakenIsRunning(idem, t1);
    WorkedLogsCompletion(false);
    var logs := Worked(false).logs;
    var s := Taken(idem, t1);
    assert GetLogByCommandId(logs, "c1") == Some(logs[0]);
    assert LogOracle(logs)(s[0].id) == Found(logs[0]);
    SweepAt(s, LogOracle(logs), LiveOracle(AR.Pool), t2, 0);
  }

  /** The acknowledgement is lost and the same agent simply polls again:
      the on-demand path fails the command without looking at the log,
      although the log says it COMPLETED and the sweep would say so too. */
  lemma {:induction false} AckLostThenPollAgain(idem: bool, t1: Tick, t2: Tick)
    ensures
      var r := Next(Taken(idem, t1), Some("agent-1"), t2);
      && r.store[0].status == Failed && r.store[0].error == Some(CrashError)
      && r.response == NoWork
  {
    TakenIsRunning(idem, t1);
    var s := Taken(idem, t1);
    assert FindRunningCommandForAgent(s, "agent-1") == Some(s[0]);
    assert IndexOf(s, "c1") == Some(0);
    var f := FailStale(s, "agent-1", t2);
    assert f == [s[0].(status := Failed, error := Some(CrashError), completedAt := Some(t2))];
    assert NoPending(f);
  }

  /** When the report arrives, the command is COMPLETED with the result,
      yet it still names the agent that ran it. */
  lemma {:induction false} ReportKeepsOwner(idem: bool, t1: Tick, t2: Tick)
    ensures
      var r := UpdateCommandResult(Taken(idem, t1), "c1", "agent-1", Completed, Some(Delayed(10)), None, t2);
      && r.command.Some?
      && r.store[0].status == Completed && r.store[0].result == Some(Delayed(10))
      && r.store[0].agentId == Some("agent-1")
  {
    TakenIsRunning(idem, t1);
    var s := Taken(idem, t1);
    assert OwnedRunning("c1", "agent-1")(s[0]);
  }

  /** Liveness is asked per agent: while agent-1 is busy with some other
      command "c2", no stale command of agent-1 without a log is touched
      by the sweep, whichever command it is. */
  lemma {:induction false} BusyOwnerKeepsStaleCommands(s: Store, now: Tick)
    requires forall i :: 0 <= i < |s| && s[i].status == Running ==> s[i].agentId == Some("agent-1")
    ensures Sweep(s, LogOracle([]), LiveOracle(AR.MarkAsRunning(AR.Pool, "agent-1", "c2")), now) == s
  {
    var table := AR.MarkAsRunning(AR.Pool, "agent-1", "c2");
    assert AR.IsAgentRunning(table, "agent-1") by {
      assert AR.AgentIndex(AR.Pool, "agent-1") == Some(0);
      AR.SameIdsSameIndex(AR.Pool, table, "agent-1");
    }
    var logs := LogOracle([]);
    var live := LiveOracle(table);
    var r := Sweep(s, logs, live, now);
    forall i | 0 <= i < |s|
      ensures r[i] == s[i]
    {
      SweepAt(s, logs, live, now, i);
      if s[i].status == Running {
        assert live(AgentKey(s[i])) == AgentRunning;
        assert logs(s[i].id) == NotFound;
      }
    }
  }

  /** Two agents poll one after the other while exactly one command is
      PENDING: the first receives it, the second is told there is no work. */
  lemma {:induction false} SingleAssignment(s: Store, a: string, b: string, t1: Tick, t2: Tick)
    requires Valid(s)
    requires a != "" && b != ""
    requires exists k :: 0 <= k < |s| && s[k].status == Pending && forall j :: 0 <= j < |s| && j != k ==> s[j].status != Pending
    ensures Next(s, Some(a), t1).response.Work?
    ensures Next(Next(s, Some(a), t1).store, Some(b), t2).response == NoWork
  {
    var k :| 0 <= k < |s| && s[k].status == Pending && forall j :: 0 <= j < |s| && j != k ==> s[j].status != Pending;
    assert IsPending(s[k]);
    assert OldestPending(s) == Some(k);
    NextAssignsOldestPending(s, a, t1);
    NextExact(s, a, t1);
    NextPreservesValid(s, Some(a), t1);
    var s1 := Next(s, Some(a), t1).store;
    forall i | 0 <= i < |s1|
      ensures s1[i].status != Pending
    {
    }
    NextAssignsOldestPending(s1, b, t2);
  }
}

=== FILE: search.dfy ===
/** Linear search over sequences: the model of `Array.prototype.find`,
    of `findByPk` and of an ordered `findOne`, all of which return the
    earliest element that matches. */
module Search {
  import opened Wrappers

  /** Index of the earliest element of `s` satisfying `p`, if any. */
  function FirstIndex<T>(s: seq<T>, p: T -> bool): (r: Option<nat>)
    ensures r.Some? ==> r.value < |s| && p(s[r.value])
    ensures r.Some? ==> forall j :: 0 <= j < r.value ==> !p(s[j])
    ensures r.None? <==> forall j :: 0 <= j < |s| ==> !p(s[j])
  {
    if |s| == 0 then None
    else if p(s[0]) then Some(0)
    else
      match FirstIndex(s[1..], p)
      case None => None
      case Some(k) => Some(k + 1)
  }

  /** The earliest element of `s` satisfying `p`, if any. */
  function First<T>(s: seq<T>, p: T -> bool): (r: Option<T>)
    ensures r.Some? ==> r.value in s && p(r.value)
    ensures r.Some? ==> exists i :: 0 <= i < |s| && s[i] == r.value && forall j :: 0 <= j < i ==> !p(s[j])
    ensures r.None? <==> forall j :: 0 <= j < |s| ==> !p(s[j])
  {
    match FirstIndex(s, p)
    case None => None
    case Some(i) => Some(s[i])
  }

  /** `a` is `b` with some elements dropped, the rest kept in order. */
  ghost predicate IsSubsequence<T>(a: seq<T>, b: seq<T>)
    decreases |b|
  {
    if |a| == 0 then true
    else if |b| == 0 then false
    else if a[0] == b[0] then IsSubsequence(a[1..], b[1..])
    else IsSubsequence(a, b[1..])
  }
  /** Two sequences whose elements agree on `p` position by position have
      the same first match. */
  lemma {:induction false} FirstIndexAgrees<T>(a: seq<T>, b: seq<T>, p: T -> bool)
    requires |a| == |b|
    requires forall i :: 0 <= i < |a| ==> p(a[i]) == p(b[i])
    ensures FirstIndex(a, p) == FirstIndex(b, p)
  {
    var x := FirstIndex(a, p);
    var y := FirstIndex(b, p);
    if x.Some? {
      assert p(b[x.value]);
      assert y.Some? && y.value <= x.value;
      assert p(a[y.value]);
    }
  }
}

=== FILE: wrappers.dfy ===
/** Optional values and outcomes, shared by every module of the model:
    `Option` stands for a nullable value or an absent row, `Result` for a
    computation that either returns or throws. */
module Wrappers {

  datatype Option<+T> = None | Some(value: T) {

    /** The value, or `default` when absent (JavaScript's `x || default`
        for values whose only falsy form is absence). */
    function GetOr(default: T): T {
      match this
      case Some(v) => v
      case None => default
    }
  }

  /** `Success` is a normal return, `Failure` an exception carrying its message. */
  datatype Result<+R, +E> = Success(value: R) | Failure(error: E)
}
